=== FILE: README.md ===
# Flutter web service worker: cache model

A Dafny model of the caching logic in the service worker that the Flutter web
build emits (`ecoplaycaicara/docs/flutter_service_worker.js`). The worker keeps
three caches: the content cache `flutter-app-cache`, the temp cache
`flutter-temp-cache` and the manifest cache `flutter-app-manifest`. It serves
the build's resources from them according to the `RESOURCES` manifest, which
maps each key to a content hash. Each event handler is modelled as a pure
state transition:

- `install` fetches the shell files (`CORE`) into the temp cache
  (`Installing.Install`).
- `activate` migrates the content cache to the current manifest. There are
  three paths: first install, upgrade with hash-based eviction, and wiping all
  three caches on error (`Activation.Activate`). The source's three loops are
  also modelled: the eviction loop as `Activation.EvictEntries`, and both
  copy loops, on the first-install path and on the upgrade path, as
  `Activation.CopyEntries`, which `Activation.RunActivate` uses on either
  path.
- `fetch` decides between pass-through, online-first and cache-first
  (`Fetching.RouteOf`, `Fetching.HandleFetch`).
- `message` handles `skipWaiting` and `downloadOffline` and ignores anything
  else (`Messages.OnMessage`, `Offline.DownloadOffline`).

Cache Storage matches a request against a stored entry by URL with the
fragment excluded. A cache is therefore a map from the request URL cut before
its first `#` (`Caches.WithoutFragment`) to an entry: the request URL it was
stored under, and a response (status and body). `cache.match` and `cache.put`
(`Caches.Match`, `Caches.Put`) go through that key, so the app's hash routes
`origin/#...` share the entry of the root document `origin/`. The network is a
function from URL to outcome: a delivered response of any status, or a network
error. `RESOURCES`, `CORE` and the worker's origin are parameters.

Modules, one per file: `Text` (the JavaScript string operations), `Caches`
(state types and `cache.addAll`), `Keys` (key derivation), `Fetching`,
`Activation`, `Installing`, `Offline`, `Messages`.

In some places the code does less, or something else, than the worker is
usually said to do. The model follows the code:

- `onlineFirst` stores every response the network delivers, including
  non-ok ones. It is often described as storing only on success. Unlike the
  cache-first branch, it never checks `response.ok`. See
  `Fetching.OnlineFirstKeepsLastDelivery`.
- Keys are derived by `substring(origin.length + 1)`. This uses only the
  origin's length and never checks that the URL starts with the origin. A URL
  on another origin of the same length therefore gets a manifest key and is
  intercepted (`Keys.CrossOriginUrlGetsKey`,
  `Fetching.CrossOriginRequestIntercepted`).
- `activate` and `downloadOffline` do not remove `?v=`. An entry cached under
  a versioned URL therefore has a different key there than in the fetch
  handler (`Keys.KeysDifferOnVersionedUrl`). Such an entry is evicted by every
  upgrade.
- `downloadOffline` walks `Object.keys(RESOURCES)`, which includes keys with an
  empty hash. The fetch handler and the eviction test check truthiness
  instead, modelled as `Keys.Listed`.
- After a first activation that succeeds from a readable manifest record, a
  second one with the same manifest changes nothing exactly when every shell
  file's key is listed. When every key is listed,
  `Activation.ActivateTwice` shows nothing changes. A shell file whose key is
  not listed is copied in by the first activation and evicted by the second
  (`Activation.ActivateTwiceEvictsUnlisted`).

## Model

| member | source | states |
|---|---|---|
| Text.StartsWithConcat | ecoplaycaicara/docs/flutter_service_worker.js:177 | `startsWith(p)` holds exactly when the string is `p` followed by some rest |
| Text.Drop | ecoplaycaicara/docs/flutter_service_worker.js:172 | `substring(n)` returns what follows the first n characters, and the empty string when the URL is shorter |
| Text.IndexOf | ecoplaycaicara/docs/flutter_service_worker.js:174 | `indexOf` is -1 exactly when the pattern occurs nowhere; otherwise it is the first index where the pattern occurs |
| Text.Before | ecoplaycaicara/docs/flutter_service_worker.js:174-176 | `split('?v=')[0]` is a prefix with no earlier occurrence of the marker; it ends where the string ends or where the first marker begins, and holds no marker |
| Text.BeforeAppended | ecoplaycaicara/docs/flutter_service_worker.js:174-176 | cutting leaves a marker-free key whole and removes a `?v=` suffix and everything after it |
| Keys.Relative | ecoplaycaicara/docs/flutter_service_worker.js:172 | for a URL under `origin/`, the relative part is exactly what follows `origin/`; a URL no longer than `origin/` gives the empty string |
| Keys.StoredKey | ecoplaycaicara/docs/flutter_service_worker.js:133-136 | the activate/offline key is never empty: it is the relative part, or `/` when that part is empty |
| Keys.FetchKey | ecoplaycaicara/docs/flutter_service_worker.js:171-179 | the fetch key holds no `?v=`; it is `/` for the bare origin or an `origin/#` URL; otherwise it is the relative part cut before the first `?v=`, or `/` when that cut is empty |
| Keys.Listed | ecoplaycaicara/docs/flutter_service_worker.js:182 | `!RESOURCES[key]` is false exactly for a key present with a non-empty hash: a listed key is in the manifest, every key with a non-empty hash is listed, and a key with an empty hash is not |
| Keys.ResolveKey | ecoplaycaicara/docs/flutter_service_worker.js:99-101 | a manifest key is requested under a URL below `origin/` |
| Keys.StoredKeyOfResolved | ecoplaycaicara/docs/flutter_service_worker.js:223-226 | a non-empty manifest key, resolved to a URL and derived back by the activate/offline rule, is the same key |
| Keys.FetchKeyOfResolved | ecoplaycaicara/docs/flutter_service_worker.js:172-179 | a marker-free key not starting with `#` is recovered by the fetch rule from its URL, with or without a `?v=` suffix |
| Keys.KeysAgree | ecoplaycaicara/docs/flutter_service_worker.js:172-179 | without `?v=` or a root fragment, the fetch key and the activate/offline key coincide |
| Keys.KeysDifferOnVersionedUrl | ecoplaycaicara/docs/flutter_service_worker.js:133-136 | for `origin/k?v=x` the fetch key is `k`, but the activate/offline key is `k?v=x` |
| Keys.CrossOriginUrlGetsKey | ecoplaycaicara/docs/flutter_service_worker.js:171-172 | a URL on another origin of the same length gets this origin's key for its path, under both derivations |
| Fetching.RouteOf | ecoplaycaicara/docs/flutter_service_worker.js:168-188 | pass-through exactly for non-GET requests and requests whose key is not listed; online-first exactly for a listed `/`; cache-first exactly for every other listed key |
| Fetching.CacheFirstStep | ecoplaycaicara/docs/flutter_service_worker.js:189-202 | a hit is served from the cache with no fetch and no change; a miss fetches and passes on the response or the error; a hit is any entry the request matches, fragment ignored; the cache only gains the fetched response, under the request without its fragment, and only when it is ok; every entry stays under its own request's fragment-free URL |
| Fetching.OnlineFirstStep | ecoplaycaicara/docs/flutter_service_worker.js:238-256 | always fetches; a delivered response is served and replaces the entry the request matches, fragment ignored; on a network error the cache is unchanged and the matching cached entry is served, or the original error is re-raised when there is none |
| Fetching.HandleFetch | ecoplaycaicara/docs/flutter_service_worker.js:167-203 | a pass-through leaves the content cache untouched and makes no fetch; an online-first or cache-first request is handled exactly by that strategy; no entry is removed, and any handled request changes the cache only at the entry it matches, with the fragment excluded, and only by storing the response it serves under its own URL; every entry stays under its own request's fragment-free URL |
| Fetching.RootDocumentOnlineFirst | ecoplaycaicara/docs/flutter_service_worker.js:177-188 | the bare origin, `origin/`, `origin/#...` and `origin/?v=...` go online-first when `/` is listed; a POST to the root passes through |
| Fetching.ResourceCacheFirst | ecoplaycaicara/docs/flutter_service_worker.js:180-189 | every other listed key, `index.html` included, goes cache-first with or without `?v=`; an unlisted key passes through |
| Fetching.CrossOriginRequestIntercepted | ecoplaycaicara/docs/flutter_service_worker.js:171-189 | a GET to another origin of the same length whose path is a listed key is served cache-first |
| Fetching.CacheFirstSecondFetchHits | ecoplaycaicara/docs/flutter_service_worker.js:191-199 | a miss with an ok response makes one fetch and adds one entry; the next request matching it, under any fragment, is served from the cache with no fetch, whatever the network does |
| Fetching.CacheFirstSkipsFailedResponse | ecoplaycaicara/docs/flutter_service_worker.js:194-198 | a non-ok response on a miss is served but leaves the cache unchanged |
| Fetching.OnlineFirstKeepsLastDelivery | ecoplaycaicara/docs/flutter_service_worker.js:240-251 | once the network has delivered any response, ok or not, a later offline request matching it, under any fragment, is served that response |
| Fetching.RootFragmentsShareEntry | ecoplaycaicara/docs/flutter_service_worker.js:238-256 | every hash route `origin/#...` matches the entry of `origin/`: offline it is served that entry, and a response delivered for it replaces that entry |
| Activation.Retained | ecoplaycaicara/docs/flutter_service_worker.js:133-140 | an entry is deleted exactly when its key's hash is missing or empty now, or differs from the saved manifest's, a key missing from the saved manifest included |
| Activation.Evict | ecoplaycaicara/docs/flutter_service_worker.js:132-143 | after eviction, an entry remains exactly when the key of its request is listed with the same hash in the saved and the current manifest; remaining entries keep their responses |
| Activation.EvictEntries | ecoplaycaicara/docs/flutter_service_worker.js:132-143 | the loop that visits each entry once and deletes those not retained ends with exactly the retained entries |
| Activation.CopyEntries | ecoplaycaicara/docs/flutter_service_worker.js:146-149 | the copy loop ends with every temp entry in the content cache, overwriting the entry under the same key, and every other entry unchanged |
| Activation.Activate | ecoplaycaicara/docs/flutter_service_worker.js:108-163 | on an error or an unparsable saved manifest, all three caches are deleted; otherwise temp is deleted, the saved manifest is `RESOURCES` and clients are claimed; on first install the content is exactly the temp entries; on upgrade it is the temp entries plus the retained entries; entries stay under their requests' fragment-free URLs |
| Activation.RunActivate | ecoplaycaicara/docs/flutter_service_worker.js:110-155 | the handler's steps in order, using the eviction loop and the copy loop of each path, end in the state `Activate` describes |
| Activation.UnchangedManifestKeepsListed | ecoplaycaicara/docs/flutter_service_worker.js:137-143 | with an unchanged manifest, no entry with a listed key is evicted; it keeps its response unless a temp entry overwrites it |
| Activation.ChangedResourceEvicted | ecoplaycaicara/docs/flutter_service_worker.js:137-149 | the entry stored for a resource whose hash changed, or that left the manifest, is present after the upgrade exactly when it is a shell file, and then holds the fresh shell response |
| Activation.ActivateTwice | ecoplaycaicara/docs/flutter_service_worker.js:130-152 | after an activation without error from a readable manifest record, activating again with the same manifest leaves all three caches unchanged, provided every shell file's key is listed |
| Activation.ActivateTwiceEvictsUnlisted | ecoplaycaicara/docs/flutter_service_worker.js:140-148 | with a readable manifest record and no error, a shell file whose key is not listed is copied in by the first activation and evicted by the second, so activating twice changes the cache |
| Activation.WipeThenFirstInstall | ecoplaycaicara/docs/flutter_service_worker.js:156-162 | a failed activation leaves all three caches deleted, so the next activation takes the first-install path and holds exactly the shell files |
| Caches.WithoutFragment | ecoplaycaicara/docs/flutter_service_worker.js:191 | the URL a request is matched by holds no `#`, is a prefix of the request URL, and is all of it or ends at its first `#` |
| Caches.FragmentCutOff | ecoplaycaicara/docs/flutter_service_worker.js:191 | a URL whose part before `#` holds no other `#` matches by that part, whatever the fragment |
| Caches.Response.Ok | ecoplaycaicara/docs/flutter_service_worker.js:195 | `response.ok` holds exactly for a status in the 2xx class |
| Caches.Match | ecoplaycaicara/docs/flutter_service_worker.js:191 | `cache.match` finds a response exactly when an entry sits under the request's fragment-free URL, and then it is that entry's response; in a well-keyed cache, exactly when some stored request matches with the fragment excluded |
| Caches.Put | ecoplaycaicara/docs/flutter_service_worker.js:242 | `cache.put` replaces exactly the entry the request matches, recording the request URL with the response, and leaves every other entry as it was |
| Caches.PutThenMatch | ecoplaycaicara/docs/flutter_service_worker.js:242-247 | after a put, every request matching the stored one, under any fragment, finds the stored response |
| Caches.AddAll | ecoplaycaicara/docs/flutter_service_worker.js:100-101 | `addAll` succeeds exactly when every URL comes back ok and no two requests match each other; it then stores every fetched response under its request without the fragment and keeps the other entries |
| Installing.ResolveAll | ecoplaycaicara/docs/flutter_service_worker.js:100-101 | turning `CORE` into requests gives one URL per key, in order, each the key resolved below the origin |
| Installing.Install | ecoplaycaicara/docs/flutter_service_worker.js:96-104 | install succeeds exactly when every shell file is fetched ok and no two shell URLs match each other; it then adds exactly the shell URLs to temp; otherwise nothing changes |
| Installing.FirstInstallThenActivate | ecoplaycaicara/docs/flutter_service_worker.js:99-128 | after a fresh install and activation, the content cache holds exactly the shell URLs with their fetched responses, temp is empty and the manifest is saved |
| Offline.CachedKeys | ecoplaycaicara/docs/flutter_service_worker.js:222-228 | the collected keys are exactly the activate/offline keys of the content entries' requests |
| Offline.DownloadOffline | ecoplaycaicara/docs/flutter_service_worker.js:218-235 | requests exactly the manifest keys whose key is not already cached, each once, in a single `addAll` |
| Offline.DownloadCompletes | ecoplaycaicara/docs/flutter_service_worker.js:229-234 | after a successful download every non-empty manifest key is cached, and no earlier entry is lost; the cache stays well keyed |
| Messages.Dispatch | ecoplaycaicara/docs/flutter_service_worker.js:207-214 | the command is skip-waiting exactly for the string `skipWaiting` and download exactly for the string `downloadOffline` |
| Messages.OnMessage | ecoplaycaicara/docs/flutter_service_worker.js:204-215 | `skipWaiting` is called exactly for its message; only `downloadOffline` requests anything, and then exactly the uncached manifest keys |
| Messages.OtherMessagesIgnored | ecoplaycaicara/docs/flutter_service_worker.js:204-215 | any other message has no effect |

## Left out

- The browser Cache Storage API, `Request`/`Response` objects and
  `response.clone()` are host APIs. A response is a status and a body. A cache
  matches on the request URL with the fragment excluded. Method matching,
  `Vary` and the `ignoreSearch` option are not modelled: the worker only
  stores GET requests and never sets the options.
- `Cache.put` rejecting a 206 response is not modelled.
- Promises, `waitUntil`/`respondWith` and interleaved fetch events are not
  modelled. Each event is one atomic step. The `cache.put` calls that the
  fetch strategies do not await are treated as done before the next event.
  The un-awaited `downloadOffline()` promise is treated the same way.
- `self.clients.claim()` is recorded as the `claimed` flag of
  `Activation.Activated`. `skipWaiting` on a message is recorded in
  `Messages.Reaction`. The unconditional `skipWaiting()` at install and
  `console.error` have no state in the model.
- The `{'cache': 'reload'}` HTTP-cache bypass at install is left out, because
  the network is an input function.
- The `RESOURCES` and `CORE` literals (lines 6-93) are build data and are
  parameters here.
- `Activation.Activate`: any error thrown by a cache operation is one boolean
  `fault`. The code deletes all three caches from the catch block wherever the
  error arose, so the end state does not depend on where it arose. A failure
  of those deletes is not modelled.
- `Keys.ResolveKey`: resolving a relative key to a URL for `addAll` is
  simplified to `origin/` + key (`/` maps to `origin/`). This assumes the worker
  is served from the origin root and keys are plain paths without dot
  segments or escapes. Real URL parsing and percent-encoding are left out.
- `Offline.DownloadCompletes`: excludes the empty manifest key. In a browser
  it resolves to the worker script's own URL. It also assumes that neither
  the origin nor any manifest key holds a `#`, and that the content cache is
  well keyed (`Caches.WellKeyed`). Otherwise an entry stored under
  `origin/a#x`, whose key is `a#x`, is replaced by the download of `a`.
- `Offline.DownloadOffline`: `currentContent` is a plain object, so
  `!currentContent[resourceKey]` is false for a manifest key naming an
  inherited property such as `constructor` or `toString`, and the code never
  requests such a key. The model looks up own keys only and requests it when
  it is not cached. Flutter's manifest keys are asset paths, not such names.
- `Activation.CopyEntries`: writes each temp entry under its own key.
  `cache.put` files it under its request's fragment-free URL; the two agree
  because the temp cache is well keyed (`Caches.WellKeyed`), which
  `Installing.Install` preserves. `Activation.Storage` itself does not
  enforce it.
- `Keys.Listed`: JavaScript property lookup also finds inherited names such
  as `constructor`, which makes `RESOURCES[key]` truthy for them. The model
  looks up own keys only.
- The order in which `downloadOffline` lists its keys follows
  `Object.keys`. The model fixes the set of keys and that each appears once,
  not their order.

=== FILE: activation.dfy ===
/**
 The activate handler: migrating the caches to a new manifest. With no saved
 manifest the content cache is rebuilt from the shell files fetched at
 install; with one, entries whose resource hash is unchanged are kept and the
 rest evicted before the shell files are copied in; on any error all three
 caches are deleted.
 */
module Activation {
  import opened Caches
  import opened Keys

  /** The `manifest` entry of the manifest cache: missing, a parsed copy of
      an earlier `RESOURCES`, or a body that `json()` cannot parse. */
  datatype Record = NoRecord | Saved(manifest: Manifest) | Unreadable

  /** The three caches: content, temp (shell files from install) and the
      manifest record. */
  datatype Storage = Storage(content: Cache, temp: Cache, record: Record)

  /** The storage after activation, and whether open clients were claimed. */
  datatype Activated = Activated(storage: Storage, claimed: bool)

  /** All three caches deleted. */
  const Wiped: Storage := Storage(map[], map[], NoRecord)

  /** A content entry, stored for the request `url`, survives an upgrade: its
      key is listed now and has the same hash in the saved manifest. It is
      deleted when the key's hash is missing or empty, or differs from the
      saved one, a key missing from the saved manifest included. */
  predicate Retained(origin: Url, resources: Manifest, saved: Manifest, url: Url)
    ensures !Retained(origin, resources, saved, url) <==>
              var k := StoredKey(origin, url);
              k !in resources || resources[k] == "" || k !in saved || saved[k] != resources[k]
  {
    var k := StoredKey(origin, url);
    Listed(resources, k) && k in saved && saved[k] == resources[k]
  }

  /** The content cache after the eviction loop. */
  function Evict(content: Cache, origin: Url, resources: Manifest, saved: Manifest): (c: Cache)
    ensures forall u :: u in c <==> u in content && Retained(origin, resources, saved, content[u].request)
    ensures forall u :: u in c ==> c[u] == content[u]
  {
    map u | u in content && Retained(origin, resources, saved, content[u].request) :: content[u]
  }

  /** The eviction loop as written: visit every content entry once and
      delete it unless it is retained. */
  method EvictEntries(content: Cache, origin: Url, resources: Manifest, saved: Manifest) returns (c: Cache)
    ensures forall u :: u in c <==> u in content && Retained(origin, resources, saved, content[u].request)
    ensures forall u :: u in c ==> c[u] == content[u]
    ensures c == Evict(content, origin, resources, saved)
  {
    c := content;
    var pending := content.Keys;
    while pending != {}
      invariant pending <= content.Keys
      invariant forall u :: u in c <==> u in content && (u in pending || Retained(origin, resources, saved, content[u].request))
      invariant forall u :: u in c ==> c[u] == content[u]
      decreases pending
    {
      var u :| u in pending;
      if !Retained(origin, resources, saved, content[u].request) {
        c := c - {u};
      }
      pending := pending - {u};
    }
  }

  /** The copy loop as written: put every temp entry into the content cache,
      overwriting the entry under the same key. `cache.put` files an entry
      under its request's fragment-free URL, which is that key when the temp
      cache is well keyed, as every temp cache `Installing.Install` builds is. */
  method CopyEntries(content: Cache, temp: Cache) returns (c: Cache)
    ensures forall u :: u in c <==> u in content || u in temp
    ensures forall u :: u in temp ==> c[u] == temp[u]
    ensures forall u :: u in content && u !in temp ==> c[u] == content[u]
    ensures c == content + temp
  {
    c := content;
    var pending := temp.Keys;
    while pending != {}
      invariant pending <= temp.Keys
      invariant forall u :: u in c <==> u in content || (u in temp && u !in pending)
      invariant forall u :: u in temp && u !in pending ==> c[u] == temp[u]
      invariant forall u :: u in content && (u !in temp || u in pending) ==> c[u] == content[u]
      decreases pending
    {
      var u :| u in pending;
      c := c[u := temp[u]];
      pending := pending - {u};
    }
  }

  /** The activate handler. `fault` stands for any error thrown by the cache
      operations; an unparsable saved manifest throws as well. */
  function Activate(s: Storage, origin: Url, resources: Manifest, fault: bool): (a: Activated)
    ensures fault || s.record.Unreadable? ==> a == Activated(Wiped, false)
    ensures !fault && !s.record.Unreadable? ==>
              a.claimed && a.storage.temp == map[] && a.storage.record == Saved(resources)
    ensures !fault && s.record.NoRecord? ==> a.storage.content == s.temp
    ensures !fault && s.record.Saved? ==>
              forall u :: u in a.storage.content <==>
                u in s.temp || (u in s.content && Retained(origin, resources, s.record.manifest, s.content[u].request))
    ensures !fault && s.record.Saved? ==>
              forall u :: u in a.storage.content ==>
                a.storage.content[u] == if u in s.temp then s.temp[u] else s.content[u]
    ensures WellKeyed(s.content) && WellKeyed(s.temp) ==> WellKeyed(a.storage.content)
  {
    if fault then Activated(Wiped, false)
    else
      match s.record
      case Unreadable => Activated(Wiped, false)
      case NoRecord => Activated(Storage(s.temp, map[], Saved(resources)), true)
      case Saved(saved) =>
        Activated(Storage(Evict(s.content, origin, resources, saved) + s.temp, map[], Saved(resources)), true)
  }

  /** The handler's steps in order, with its two loops; it ends in the state
      `Activate` describes. */
  method RunActivate(s: Storage, origin: Url, resources: Manifest, fault: bool) returns (a: Activated)
    ensures a == Activate(s, origin, resources, fault)
  {
    if fault || s.record.Unreadable? {
      return Activated(Wiped, false);
    }
    var content := s.content;
    if s.record.NoRecord? {
      content := map[];
    } else {
      content := EvictEntries(content, origin, resources, s.record.manifest);
    }
    content := CopyEntries(content, s.temp);
    return Activated(Storage(content, map[], Saved(resources)), true);
  }

  /** With an unchanged manifest, no entry whose key is listed is evicted:
      it keeps its response unless a shell file replaces it. */
  lemma UnchangedManifestKeepsListed(s: Storage, origin: Url, resources: Manifest, u: Url)
    requires s.record == Saved(resources)
    requires u in s.content && Listed(resources, StoredKey(origin, s.content[u].request))
    ensures var c := Activate(s, origin, resources, false).storage.content;
            u in c && c[u] == if u in s.temp then s.temp[u] else s.content[u]
  {
  }

  /** The entry stored for a resource whose hash changed, or that left the
      manifest, is evicted; afterwards it is present exactly when it is a
      shell file, and then with the freshly fetched response. */
  lemma ChangedResourceEvicted(s: Storage, origin: Url, resources: Manifest, k: Key, u: Url)
    requires s.record.Saved?
    requires k != ""
    requires u in s.content && s.content[u].request == ResolveKey(origin, k)
    requires !Listed(resources, k) || k !in s.record.manifest || s.record.manifest[k] != resources[k]
    ensures var c := Activate(s, origin, resources, false).storage.content;
            (u in c <==> u in s.temp) && (u in s.temp ==> c[u] == s.temp[u])
  {
    StoredKeyOfResolved(origin, k);
  }

  /** Activating a second time with the same manifest changes nothing, as
      long as every shell file's key is listed. */
  lemma {:induction false} ActivateTwice(s: Storage, origin: Url, resources: Manifest)
    requires !s.record.Unreadable?
    requires forall u :: u in s.temp ==> Listed(resources, StoredKey(origin, s.temp[u].request))
    ensures var once := Activate(s, origin, resources, false).storage;
            Activate(once, origin, resources, false).storage == once
  {
    var once := Activate(s, origin, resources, false).storage;
    var twice := Activate(once, origin, resources, false).storage;
    forall u | u in once.content
      ensures Retained(origin, resources, resources, once.content[u].request)
    {
      var k := StoredKey(origin, once.content[u].request);
      if u in s.temp {
        assert once.content[u] == s.temp[u];
      } else {
        assert s.record.Saved? && Retained(origin, resources, s.record.manifest, s.content[u].request);
        assert once.content[u] == s.content[u];
      }
      assert Listed(resources, k);
    }
    assert twice.content.Keys == once.content.Keys;
    assert twice.content == once.content;
  }

  /** Conversely, a shell file whose key is not listed is copied in by the
      first activation and evicted by the second, so activating twice does
      change the content cache. */
  lemma ActivateTwiceEvictsUnlisted(s: Storage, origin: Url, resources: Manifest, u: Url)
    requires !s.record.Unreadable?
    requires u in s.temp && !Listed(resources, StoredKey(origin, s.temp[u].request))
    ensures var once := Activate(s, origin, resources, false).storage;
            var twice := Activate(once, origin, resources, false).storage;
            u in once.content && once.content[u] == s.temp[u] && u !in twice.content && twice != once
  {
  }

  /** After a failed activation the next one starts over as a first install:
      the content cache holds exactly the shell files. */
  lemma WipeThenFirstInstall(s: Storage, origin: Url, resources: Manifest, temp: Cache)
    requires s.record.Unreadable?
    ensures var wiped := Activate(s, origin, resources, false).storage;
            wiped == Wiped
            && Activate(Storage(wiped.content, temp, wiped.record), origin, resources, false).storage
               == Storage(temp, map[], Saved(resources))
  {
  }
}

=== FILE: caches.dfy ===
/**
 The worker's persistent state and its collaborators, as values. The three
 named Cache Storage caches (`flutter-app-cache`, `flutter-temp-cache`,
 `flutter-app-manifest`) become immutable maps; HTTP responses and network
 outcomes become plain data. Cache Storage matches a request against stored
 entries by URL with the fragment excluded, so a cache is keyed that way and
 each entry keeps the request URL it was stored under.
 */
module Caches {
  import opened Text

  datatype Option<+T> = None | Some(value: T)

  /** An absolute request URL, e.g. `https://host/main.dart.js?v=3`. */
  type Url = string

  /** A manifest key: a resource path relative to the origin, or `/` for the
      entry document. */
  type Key = string

  /** The `RESOURCES` table: manifest key to content hash. */
  type Manifest = map<Key, string>

  /** An HTTP response snapshot; only its status and body matter here. */
  datatype Response = Response(status: nat, body: string) {
    /** `response.ok`: a status in the 200-299 range. */
    predicate Ok()
      ensures Ok() <==> status / 100 == 2
    {
      200 <= status <= 299
    }
  }

  /** The URL with its fragment excluded: everything before the first `#`.
      Two requests match exactly when these agree. */
  function WithoutFragment(url: Url): (r: Url)
    ensures '#' !in r
    ensures StartsWith(url, r)
    ensures r == url || url[|r|] == '#'
  {
    var r := Before(url, "#");
    forall i | 0 <= i < |r|
      ensures r[i] != '#'
    {
      assert r[i..i + 1] == [r[i]];
      assert !OccursAt(r, "#", i);
    }
    assert r != url ==> url[|r|..|r| + 1] == "#";
    r
  }

  /** A URL without `#` is its own fragment-free form. */
  lemma FragmentFreeUrl(url: Url)
    requires '#' !in url
    ensures WithoutFragment(url) == url
  {
    AbsentChar(url, '#');
    CutBeforeUnique(url, "#", Before(url, "#"), url);
  }

  /** A fragment is cut off a URL that has none before it. */
  lemma FragmentCutOff(base: Url, fragment: string)
    requires '#' !in base
    ensures WithoutFragment(base + "#" + fragment) == base
  {
    AbsentChar(base, '#');
    BeforeAppended(base, "#", fragment);
  }

  /** A stored entry: the request URL it was put under, and the response. */
  datatype Entry = Entry(request: Url, response: Response)

  /** A cache: entries keyed by their request URL without its fragment.
      A deleted cache is the empty map, since opening it again yields an empty
      cache. */
  type Cache = map<Url, Entry>

  /** Every entry sits under its own request's fragment-free URL. Every
      operation of the model keeps this. */
  predicate WellKeyed(c: Cache) {
    forall u :: u in c ==> WithoutFragment(c[u].request) == u
  }

  /** `cache.match(url)`: the response stored for a matching request. In a
      well-keyed cache there is one exactly when some stored request has the
      same fragment-free URL. */
  function Match(c: Cache, url: Url): (r: Option<Response>)
    ensures r.Some? <==> WithoutFragment(url) in c
    ensures r.Some? ==> r.value == c[WithoutFragment(url)].response
    ensures WellKeyed(c) && r.Some? ==>
              exists u :: u in c && WithoutFragment(c[u].request) == WithoutFragment(url) && r.value == c[u].response
    ensures WellKeyed(c) && (exists u :: u in c && WithoutFragment(c[u].request) == WithoutFragment(url)) ==> r.Some?
  {
    var key := WithoutFragment(url);
    if key in c then Some(c[key].response) else None
  }

  /** `cache.put(url, response)`: replaces any entry matching `url`. */
  function Put(c: Cache, url: Url, response: Response): (r: Cache)
    ensures forall u :: u in r <==> u in c || u == WithoutFragment(url)
    ensures r[WithoutFragment(url)] == Entry(url, response)
    ensures forall u :: u in c && u != WithoutFragment(url) ==> r[u] == c[u]
    ensures WellKeyed(c) ==> WellKeyed(r)
  {
    c[WithoutFragment(url) := Entry(url, response)]
  }

  /** After a put, every request that matches the stored one is answered
      with the stored response, whatever its fragment. */
  lemma PutThenMatch(c: Cache, url: Url, response: Response, other: Url)
    requires WithoutFragment(other) == WithoutFragment(url)
    ensures Match(Put(c, url, response), other) == Some(response)
  {
  }

  /** What `fetch` does with one request: it resolves with a response (of any
      status) or rejects with a network error. */
  datatype NetOutcome = Delivered(response: Response) | NetworkError(reason: string)

  /** The network, as a function from request URL to outcome. */
  type Network = Url -> NetOutcome

  /** `fetch` resolved with an ok response. */
  predicate Fetched(o: NetOutcome) {
    o.Delivered? && o.response.Ok()
  }

  /** No two of the requests match each other. */
  predicate DistinctRequests(urls: seq<Url>) {
    forall i, j :: 0 <= i < j < |urls| ==> WithoutFragment(urls[i]) != WithoutFragment(urls[j])
  }

  /** Matching requests in a list without matching pairs are the same request. */
  lemma DistinctRequestsMembers(urls: seq<Url>)
    requires DistinctRequests(urls)
    ensures forall u, v :: u in urls && v in urls && WithoutFragment(u) == WithoutFragment(v) ==> u == v
  {
    forall u, v | u in urls && v in urls && WithoutFragment(u) == WithoutFragment(v)
      ensures u == v
    {
      var i :| 0 <= i < |urls| && urls[i] == u;
      var j :| 0 <= j < |urls| && urls[j] == v;
      assert WithoutFragment(urls[i]) == WithoutFragment(urls[j]);
      assert i == j;
    }
  }

  /** The entries `addAll` writes once every request is delivered: each
      response under its request's fragment-free URL. */
  function FetchedEntries(urls: seq<Url>, net: Network): (m: Cache)
    requires forall u :: u in urls ==> net(u).Delivered?
    requires DistinctRequests(urls)
    ensures forall u :: u in urls ==> WithoutFragment(u) in m && m[WithoutFragment(u)] == Entry(u, net(u).response)
    ensures forall key :: key in m <==> exists u :: u in urls && WithoutFragment(u) == key
    ensures WellKeyed(m)
  {
    DistinctRequestsMembers(urls);
    map u | u in urls :: WithoutFragment(u) := Entry(u, net(u).response)
  }

  /** `cache.addAll(urls)`: fetch every URL; when all of them come back ok
      and no two requests match each other, store them all, otherwise reject
      and store nothing. */
  function AddAll(c: Cache, urls: seq<Url>, net: Network): (r: Option<Cache>)
    ensures r.Some? <==> (forall u :: u in urls ==> Fetched(net(u))) && DistinctRequests(urls)
    ensures r.Some? ==> forall u :: u in urls ==>
              WithoutFragment(u) in r.value && r.value[WithoutFragment(u)] == Entry(u, net(u).response)
    ensures r.Some? ==> forall key :: key in r.value <==>
              key in c || exists u :: u in urls && WithoutFragment(u) == key
    ensures r.Some? ==> forall key :: key in c && (forall u :: u in urls ==> WithoutFragment(u) != key) ==>
              r.value[key] == c[key]
    ensures r.Some? && WellKeyed(c) ==> WellKeyed(r.value)
  {
    if (forall u :: u in urls ==> Fetched(net(u))) && DistinctRequests(urls) then
      Some(c + FetchedEntries(urls, net))
    else
      None
  }
}

=== FILE: fetching.dfy ===
/**
 The fetch handler: which requests the worker answers, and the two ways it
 answers them (cache-first for ordinary resources, online-first for the entry
 document). One event is one pure step over the content cache.
 */
module Fetching {
  import opened Text
  import opened Caches
  import opened Keys

  datatype Request = Request(verb: string, url: Url)

  /** How a request is handled. */
  datatype Route = PassThrough | OnlineFirst | CacheFirst

  /** What the page receives: the browser's own handling (the worker did not
      call `respondWith`), a response, or a rejected promise. */
  datatype Answer = Default | Serve(response: Response) | Fail(reason: string)

  /** The outcome of one fetch event: the answer, the content cache
      afterwards, and whether the worker itself went to the network. */
  datatype Handled = Handled(answer: Answer, content: Cache, fetched: bool)

  /** Routing decision of the fetch handler. */
  function RouteOf(origin: Url, resources: Manifest, req: Request): (r: Route)
    ensures r == PassThrough <==> req.verb != "GET" || !Listed(resources, FetchKey(origin, req.url))
    ensures r == OnlineFirst <==> req.verb == "GET" && FetchKey(origin, req.url) == Root && Listed(resources, Root)
    ensures r == CacheFirst <==>
              req.verb == "GET" && FetchKey(origin, req.url) != Root && Listed(resources, FetchKey(origin, req.url))
  {
    if req.verb != "GET" then PassThrough
    else
      var key := FetchKey(origin, req.url);
      if !Listed(resources, key) then PassThrough
      else if key == Root then OnlineFirst
      else CacheFirst
  }

  /** Cache-first: answer from a matching cached entry when there is one;
      otherwise fetch, and keep the response only when it is ok. */
  function CacheFirstStep(content: Cache, url: Url, net: Network): (h: Handled)
    ensures WithoutFragment(url) in content ==>
              h == Handled(Serve(content[WithoutFragment(url)].response), content, false)
    ensures WithoutFragment(url) !in content ==> h.fetched
    ensures WithoutFragment(url) !in content && net(url).Delivered? ==> h.answer == Serve(net(url).response)
    ensures WithoutFragment(url) !in content && net(url).NetworkError? ==> h.answer == Fail(net(url).reason)
    ensures forall u :: u in content ==> u in h.content && h.content[u] == content[u]
    ensures forall u :: u in h.content && u !in content ==>
              u == WithoutFragment(url) && Fetched(net(url)) && h.content[u] == Entry(url, net(url).response)
    ensures WithoutFragment(url) !in content && Fetched(net(url)) ==> WithoutFragment(url) in h.content
    ensures WellKeyed(content) ==> WellKeyed(h.content)
  {
    match Match(content, url)
    case Some(cached) => Handled(Serve(cached), content, false)
    case None =>
      match net(url)
      case NetworkError(reason) => Handled(Fail(reason), content, true)
      case Delivered(response) =>
        Handled(Serve(response), if response.Ok() then Put(content, url, response) else content, true)
  }

  /** Online-first: always go to the network; store whatever it delivers,
      replacing the entry the request matches; on a network error fall back to
      a matching cached entry, else pass the error on. */
  function OnlineFirstStep(content: Cache, url: Url, net: Network): (h: Handled)
    ensures h.fetched
    ensures net(url).Delivered? ==> h.answer == Serve(net(url).response)
    ensures net(url).Delivered? ==>
              h.content == content[WithoutFragment(url) := Entry(url, net(url).response)]
    ensures net(url).NetworkError? ==> h.content == content
    ensures net(url).NetworkError? && WithoutFragment(url) in content ==>
              h.answer == Serve(content[WithoutFragment(url)].response)
    ensures net(url).NetworkError? && WithoutFragment(url) !in content ==> h.answer == Fail(net(url).reason)
    ensures WellKeyed(content) ==> WellKeyed(h.content)
  {
    match net(url)
    case Delivered(response) => Handled(Serve(response), Put(content, url, response), true)
    case NetworkError(reason) =>
      match Match(content, url)
      case Some(cached) => Handled(Serve(cached), content, true)
      case None => Handled(Fail(reason), content, true)
  }

  /** One fetch event. Only the entry the request matches can change. */
  function HandleFetch(origin: Url, resources: Manifest, content: Cache, req: Request, net: Network): (h: Handled)
    ensures RouteOf(origin, resources, req) == PassThrough <==> h.answer == Default
    ensures h.answer == Default ==> h == Handled(Default, content, false)
    ensures RouteOf(origin, resources, req) == OnlineFirst ==> h == OnlineFirstStep(content, req.url, net)
    ensures RouteOf(origin, resources, req) == CacheFirst ==> h == CacheFirstStep(content, req.url, net)
    ensures forall u :: u in content ==> u in h.content
    ensures forall u :: u != WithoutFragment(req.url) ==> (u in h.content <==> u in content)
    ensures forall u :: u != WithoutFragment(req.url) && u in content ==> h.content[u] == content[u]
    ensures var key := WithoutFragment(req.url);
            key in h.content && (key !in content || h.content[key] != content[key]) ==>
              h.fetched && net(req.url).Delivered?
              && h.content[key] == Entry(req.url, net(req.url).response)
              && h.answer == Serve(h.content[key].response)
    ensures WellKeyed(content) ==> WellKeyed(h.content)
  {
    match RouteOf(origin, resources, req)
    case PassThrough => Handled(Default, content, false)
    case OnlineFirst => OnlineFirstStep(content, req.url, net)
    case CacheFirst => CacheFirstStep(content, req.url, net)
  }

  /** The entry document, under the bare root, a root fragment or a `?v=`
      version, is served online-first; a non-GET request for it is not
      intercepted. */
  lemma RootDocumentOnlineFirst(origin: Url, resources: Manifest, fragment: string, version: string)
    requires Listed(resources, Root)
    ensures RouteOf(origin, resources, Request("GET", origin)) == OnlineFirst
    ensures RouteOf(origin, resources, Request("GET", origin + "/")) == OnlineFirst
    ensures RouteOf(origin, resources, Request("GET", origin + "/#" + fragment)) == OnlineFirst
    ensures RouteOf(origin, resources, Request("GET", origin + "/" + VersionMarker + version)) == OnlineFirst
    ensures RouteOf(origin, resources, Request("POST", origin + "/")) == PassThrough
  {
    FetchKeyOfResolved(origin, Root, version);
    assert ResolveKey(origin, Root) == origin + "/";
    assert StartsWith(origin + "/#" + fragment, origin + "/#") by {
      assert (origin + "/#" + fragment)[..|origin + "/#"|] == origin + "/#";
    }
  }

  /** Every other listed key, `index.html` included, is served cache-first,
      whether or not a `?v=` version is appended; an unlisted key is passed
      through. */
  lemma ResourceCacheFirst(origin: Url, resources: Manifest, k: Key, version: string)
    requires k != "" && k != Root && k[0] != '#'
    requires Absent(k, VersionMarker)
    ensures Listed(resources, k) ==> RouteOf(origin, resources, Request("GET", origin + "/" + k)) == CacheFirst
    ensures Listed(resources, k) ==>
              RouteOf(origin, resources, Request("GET", origin + "/" + k + VersionMarker + version)) == CacheFirst
    ensures !Listed(resources, k) ==> RouteOf(origin, resources, Request("GET", origin + "/" + k)) == PassThrough
  {
    FetchKeyOfResolved(origin, k, version);
  }

  /** A URL on a different origin of the same length is intercepted, and
      served cache-first, when its path is a listed key. */
  lemma CrossOriginRequestIntercepted(origin: Url, other: Url, resources: Manifest, k: Key)
    requires |other| == |origin|
    requires k != "" && k != Root && k[0] != '#'
    requires Absent(k, VersionMarker)
    requires Listed(resources, k)
    ensures RouteOf(origin, resources, Request("GET", other + "/" + k)) == CacheFirst
  {
    CrossOriginUrlGetsKey(origin, other, k);
  }

  /** A resource fetched on a miss costs one network fetch and one cache
      write; fetching it again, under any fragment, is answered from the cache
      with no network fetch, whatever the network would do. */
  lemma CacheFirstSecondFetchHits(content: Cache, url: Url, other: Url, net: Network, later: Network)
    requires WithoutFragment(url) !in content
    requires WithoutFragment(other) == WithoutFragment(url)
    requires Fetched(net(url))
    ensures var first := CacheFirstStep(content, url, net);
            && first.fetched
            && first.content == content[WithoutFragment(url) := Entry(url, net(url).response)]
            && |first.content| == |content| + 1
            && CacheFirstStep(first.content, other, later) == Handled(Serve(net(url).response), first.content, false)
  {
    var first := CacheFirstStep(content, url, net);
    assert first.content.Keys == content.Keys + {WithoutFragment(url)};
  }

  /** A response that is not ok is passed to the page but not cached, so the
      next request for it goes to the network again. */
  lemma CacheFirstSkipsFailedResponse(content: Cache, url: Url, net: Network)
    requires WithoutFragment(url) !in content
    requires net(url).Delivered? && !net(url).response.Ok()
    ensures CacheFirstStep(content, url, net) == Handled(Serve(net(url).response), content, true)
  {
  }

  /** Online-first stores every delivered response, ok or not, replacing a
      cached copy: a later offline request matching it, under any fragment,
      then gets that response. */
  lemma OnlineFirstKeepsLastDelivery(content: Cache, url: Url, other: Url, net: Network, offline: Network)
    requires WithoutFragment(other) == WithoutFragment(url)
    requires net(url).Delivered?
    requires offline(other).NetworkError?
    ensures var first := OnlineFirstStep(content, url, net);
            OnlineFirstStep(first.content, other, offline) == Handled(Serve(net(url).response), first.content, true)
  {
  }

  /** The app's hash routes `origin/#...` all share the entry of the root
      document `origin/`: offline they are answered with it, and a response
      delivered for one of them replaces it. */
  lemma RootFragmentsShareEntry(origin: Url, resources: Manifest, content: Cache, fragment: string, net: Network)
    requires '#' !in origin
    requires Listed(resources, Root)
    ensures var url := origin + "/#" + fragment;
            var h := HandleFetch(origin, resources, content, Request("GET", url), net);
            && WithoutFragment(url) == origin + "/"
            && (net(url).NetworkError? && origin + "/" in content ==> h.answer == Serve(content[origin + "/"].response))
            && (net(url).Delivered? ==> h.content[origin + "/"] == Entry(url, net(url).response))
  {
    var url := origin + "/#" + fragment;
    RootDocumentOnlineFirst(origin, resources, fragment, "");
    assert url == (origin + "/") + "#" + fragment;
    FragmentCutOff(origin + "/", fragment);
  }
}

=== FILE: install.dfy ===
/**
 The install handler: fetch the application shell (`CORE`) into the temp
 cache, bypassing the HTTP cache, before the worker may activate.
 */
module Installing {
  import opened Caches
  import opened Keys
  import opened Activation

  /** The URLs `cache.addAll` requests for a list of manifest keys. */
  function ResolveAll(origin: Url, keys: seq<Key>): (urls: seq<Url>)
    ensures |urls| == |keys|
    ensures forall i :: 0 <= i < |keys| ==> urls[i] == ResolveKey(origin, keys[i])
  {
    seq(|keys|, i requires 0 <= i < |keys| => ResolveKey(origin, keys[i]))
  }

  /** A URL is requested exactly when it is the resolution of a listed key. */
  lemma InResolveAll(origin: Url, keys: seq<Key>, u: Url)
    ensures u in ResolveAll(origin, keys) <==> exists k :: k in keys && u == ResolveKey(origin, k)
  {
    var urls := ResolveAll(origin, keys);
    if u in urls {
      var i :| 0 <= i < |urls| && urls[i] == u;
      assert keys[i] in keys;
    }
    if exists k :: k in keys && u == ResolveKey(origin, k) {
      var k :| k in keys && u == ResolveKey(origin, k);
      var i :| 0 <= i < |keys| && keys[i] == k;
      assert urls[i] == u;
    }
  }

  /** The storage after installation, and whether installation succeeded. */
  datatype Installed = Installed(storage: Storage, ok: bool)

  /** The install handler: all shell files land in the temp cache, each
      under its request without the fragment, or, when one of them cannot be
      fetched ok or two of the requests match each other, installation fails
      and nothing is stored. */
  function Install(s: Storage, origin: Url, core: seq<Key>, net: Network): (i: Installed)
    ensures i.ok <==> (forall k :: k in core ==> Fetched(net(ResolveKey(origin, k))))
                      && DistinctRequests(ResolveAll(origin, core))
    ensures !i.ok ==> i.storage == s
    ensures i.storage.content == s.content && i.storage.record == s.record
    ensures i.ok ==> forall u :: u in i.storage.temp <==>
                       u in s.temp || exists k :: k in core && u == WithoutFragment(ResolveKey(origin, k))
    ensures i.ok ==> forall k :: k in core ==>
                       i.storage.temp[WithoutFragment(ResolveKey(origin, k))]
                       == Entry(ResolveKey(origin, k), net(ResolveKey(origin, k)).response)
    ensures WellKeyed(s.temp) ==> WellKeyed(i.storage.temp)
  {
    var urls := ResolveAll(origin, core);
    forall u ensures u in urls <==> exists k :: k in core && u == ResolveKey(origin, k) {
      InResolveAll(origin, core, u);
    }
    match AddAll(s.temp, urls, net)
    case Some(temp) => Installed(Storage(s.content, temp, s.record), true)
    case None => Installed(s, false)
  }

  /** A first install followed by activation leaves exactly the shell files
      in the content cache and the current manifest saved. */
  lemma {:induction false} FirstInstallThenActivate(origin: Url, resources: Manifest, core: seq<Key>, net: Network, content: Cache)
    requires forall k :: k in core ==> Fetched(net(ResolveKey(origin, k)))
    requires DistinctRequests(ResolveAll(origin, core))
    ensures var installed := Install(Storage(content, map[], NoRecord), origin, core, net);
            var active := Activate(installed.storage, origin, resources, false);
            && installed.ok
            && active.storage.record == Saved(resources)
            && active.storage.temp == map[]
            && WellKeyed(active.storage.content)
            && (forall u :: u in active.storage.content <==>
                  exists k :: k in core && u == WithoutFragment(ResolveKey(origin, k)))
            && (forall k :: k in core ==>
                  active.storage.content[WithoutFragment(ResolveKey(origin, k))]
                  == Entry(ResolveKey(origin, k), net(ResolveKey(origin, k)).response))
  {
    var installed := Install(Storage(content, map[], NoRecord), origin, core, net);
    assert WellKeyed(map[]);
    assert installed.ok;
  }
}

=== FILE: keys.dfy ===
/**
 How the worker turns a request URL into a manifest key. The fetch handler
 and the activate/offline code derive keys differently, so there are two
 derivations here, plus the resolution of a manifest key back into a URL.
 */
module Keys {
  import opened Text
  import opened Caches

  /** The manifest key of the entry document. */
  const Root: Key := "/"

  /** The cache-busting query marker the fetch handler cuts off. */
  const VersionMarker: string := "?v="

  /** `RESOURCES[key]` is truthy: the key is present with a non-empty hash. */
  predicate Listed(resources: Manifest, k: Key)
    ensures Listed(resources, k) ==> k in resources
    ensures k in resources && |resources[k]| > 0 ==> Listed(resources, k)
    ensures k in resources && resources[k] == "" ==> !Listed(resources, k)
  {
    k in resources && resources[k] != ""
  }

  /** `url.substring(origin.length + 1)`: the URL with as many characters
      dropped as `origin + "/"` has. Only the length of the origin is used. */
  function Relative(origin: Url, url: Url): (rel: string)
    ensures StartsWith(url, origin + "/") ==> url == origin + "/" + rel
    ensures |url| <= |origin| + 1 ==> rel == ""
  {
    Drop(url, |origin| + 1)
  }

  /** The key used by `activate` and `downloadOffline`: the relative part,
      with the empty string standing for the entry document. */
  function StoredKey(origin: Url, url: Url): (k: Key)
    ensures k != ""
    ensures k == Root || k == Relative(origin, url)
    ensures Relative(origin, url) != "" ==> k == Relative(origin, url)
  {
    var rel := Relative(origin, url);
    if rel == "" then Root else rel
  }

  /** The key used by the fetch handler: the relative part cut before the
      first `?v=`, with the bare origin, a fragment on the origin's root and an
      empty remainder all standing for the entry document. */
  function FetchKey(origin: Url, url: Url): (k: Key)
    ensures k != ""
    ensures Absent(k, VersionMarker)
    ensures url == origin || StartsWith(url, origin + "/#") ==> k == Root
    ensures !(url == origin || StartsWith(url, origin + "/#")) ==>
              CutBefore(Relative(origin, url), VersionMarker, k)
              || (k == Root && CutBefore(Relative(origin, url), VersionMarker, ""))
  {
    var rel := Relative(origin, url);
    var key := if IndexOf(rel, VersionMarker) != -1 then Before(rel, VersionMarker) else rel;
    assert key == Before(rel, VersionMarker);
    assert Absent(Root, VersionMarker) by {
      forall i: nat | i <= |Root|
        ensures !OccursAt(Root, VersionMarker, i)
      {
      }
    }
    if url == origin || StartsWith(url, origin + "/#") || key == "" then Root else key
  }

  /** The URL a manifest key is requested under by `cache.addAll`, for a
      worker served at the origin root: `/` is the root document, any other
      key is a path below the origin. */
  function ResolveKey(origin: Url, k: Key): (url: Url)
    ensures StartsWith(url, origin + "/")
  {
    if k == Root then origin + "/" else origin + "/" + k
  }

  /** Keys survive the trip through a URL and back by `StoredKey`; only the
      empty key, which resolves like `/`, does not. */
  lemma StoredKeyOfResolved(origin: Url, k: Key)
    requires k != ""
    ensures StoredKey(origin, ResolveKey(origin, k)) == k
  {
    var url := ResolveKey(origin, k);
    if k == Root {
      assert url == origin + "/" + "";
    }
  }

  /** A URL below the origin: its relative part is what follows `origin/`,
      and it names the root fragment exactly when that part starts with `#`. */
  lemma BelowOrigin(origin: Url, rest: string)
    ensures Relative(origin, origin + "/" + rest) == rest
    ensures origin + "/" + rest != origin
    ensures StartsWith(origin + "/" + rest, origin + "/#") <==> rest != "" && rest[0] == '#'
  {
    var url := origin + "/" + rest;
    assert url[..|origin| + 1] == origin + "/";
    if rest != "" {
      assert url[|origin| + 1] == rest[0];
    }
    if StartsWith(url, origin + "/#") {
      assert url[|origin| + 1] == (origin + "/#")[|origin| + 1];
    }
    if rest != "" && rest[0] == '#' {
      assert url[..|origin| + 2] == origin + "/#";
    }
  }

  /** A key with no `?v=` that does not start with `#` comes back from the
      fetch handler's derivation, with or without a `?v=` version appended. */
  lemma FetchKeyOfResolved(origin: Url, k: Key, version: string)
    requires k != "" && k[0] != '#'
    requires Absent(k, VersionMarker)
    ensures FetchKey(origin, ResolveKey(origin, k)) == k
    ensures FetchKey(origin, ResolveKey(origin, k) + VersionMarker + version) == k
  {
    assert HeadUnique(VersionMarker);
    var rel := if k == Root then "" else k;
    BeforeAppended(rel, VersionMarker, version);
    assert ResolveKey(origin, k) == origin + "/" + rel;
    PlainFetchKey(origin, k, rel);
    var tail := rel + VersionMarker + version;
    assert ResolveKey(origin, k) + VersionMarker + version == origin + "/" + tail;
    VersionedFetchKey(origin, k, rel, tail);
  }

  /** The fetch key of `origin/rel`, where `rel` is `k` or, for the root, empty. */
  lemma PlainFetchKey(origin: Url, k: Key, rel: string)
    requires k != "" && k[0] != '#'
    requires rel == if k == Root then "" else k
    requires Before(rel, VersionMarker) == rel
    ensures FetchKey(origin, origin + "/" + rel) == k
  {
    BelowOrigin(origin, rel);
  }

  /** The fetch key of `origin/tail`, where `tail` is `rel` followed by a
      `?v=` version. */
  lemma VersionedFetchKey(origin: Url, k: Key, rel: string, tail: string)
    requires k != "" && k[0] != '#'
    requires rel == if k == Root then "" else k
    requires StartsWith(tail, rel + VersionMarker)
    requires Before(tail, VersionMarker) == rel
    ensures FetchKey(origin, origin + "/" + tail) == k
  {
    BelowOrigin(origin, tail);
    assert tail[0] == (rel + VersionMarker)[0];
  }

  /** Where no `?v=` and no root fragment is involved, the two derivations
      agree. */
  lemma KeysAgree(origin: Url, url: Url)
    requires Absent(Relative(origin, url), VersionMarker)
    requires url != origin && !StartsWith(url, origin + "/#")
    ensures FetchKey(origin, url) == StoredKey(origin, url)
  {
    var rel := Relative(origin, url);
    CutBeforeUnique(rel, VersionMarker, Before(rel, VersionMarker), rel);
  }

  /** A versioned URL gets different keys: the fetch handler files it under
      the plain key, the activate/offline code under the key with the query. */
  lemma KeysDifferOnVersionedUrl(origin: Url, k: Key, version: string)
    requires k != "" && k != Root && k[0] != '#'
    requires Absent(k, VersionMarker)
    ensures FetchKey(origin, origin + "/" + k + VersionMarker + version) == k
    ensures StoredKey(origin, origin + "/" + k + VersionMarker + version) == k + VersionMarker + version
  {
    var url := origin + "/" + k + VersionMarker + version;
    assert FetchKey(origin, url) == k by {
      FetchKeyOfResolved(origin, k, version);
      assert ResolveKey(origin, k) + VersionMarker + version == url;
    }
    assert StoredKey(origin, url) == k + VersionMarker + version by {
      assert url == origin + "/" + (k + VersionMarker + version);
      BelowOrigin(origin, k + VersionMarker + version);
    }
  }

  /** Only the length of the origin is used, so a URL on another origin of
      the same length gets this origin's key for the same path. */
  lemma CrossOriginUrlGetsKey(origin: Url, other: Url, k: Key)
    requires |other| == |origin|
    requires k != "" && k != Root && k[0] != '#'
    requires Absent(k, VersionMarker)
    ensures FetchKey(origin, other + "/" + k) == k
    ensures StoredKey(origin, other + "/" + k) == k
  {
    var url := other + "/" + k;
    FetchKeyOfResolved(other, k, "");
    BelowOrigin(other, k);
    assert Relative(origin, url) == Relative(other, url);
    assert url[|origin| + 1] == k[0];
  }
}

=== FILE: messages.dfy ===
/**
 The message handler: the page can ask the worker to skip waiting or to
 download everything for offline use; every other message is ignored.
 */
module Messages {
  import opened Caches
  import opened Offline

  /** `event.data`: a string, or any other structured-clone value. */
  datatype MessageData = StringData(s: string) | OtherData

  datatype Command = SkipWaiting | DownloadAll | Ignore

  /** Which command a message is. */
  function Dispatch(data: MessageData): (c: Command)
    ensures c == SkipWaiting <==> data == StringData("skipWaiting")
    ensures c == DownloadAll <==> data == StringData("downloadOffline")
  {
    match data
    case StringData(s) =>
      if s == "skipWaiting" then SkipWaiting
      else if s == "downloadOffline" then DownloadAll
      else Ignore
    case OtherData => Ignore
  }

  /** What a message sets off: a `skipWaiting` call, and the manifest keys
      requested for download. */
  datatype Reaction = Reaction(skipWaiting: bool, requested: set<Key>)

  /** The message handler. */
  function OnMessage(data: MessageData, content: Cache, origin: Url, resources: Manifest): (r: Reaction)
    ensures r.skipWaiting <==> data == StringData("skipWaiting")
    ensures data != StringData("downloadOffline") ==> r.requested == {}
    ensures data == StringData("downloadOffline") ==>
              forall k :: k in r.requested <==> k in resources && k !in CachedKeys(content, origin)
  {
    match Dispatch(data)
    case SkipWaiting => Reaction(true, {})
    case DownloadAll => Reaction(false, resources.Keys - CachedKeys(content, origin))
    case Ignore => Reaction(false, {})
  }

  /** Anything but the two commands has no effect at all. */
  lemma OtherMessagesIgnored(data: MessageData, content: Cache, origin: Url, resources: Manifest)
    requires data != StringData("skipWaiting") && data != StringData("downloadOffline")
    ensures OnMessage(data, content, origin, resources) == Reaction(false, {})
  {
  }
}

=== FILE: offline.dfy ===
/**
 `downloadOffline`: fetch every manifest resource that the content cache does
 not hold yet, so that the whole application works offline.
 */
module Offline {
  import opened Caches
  import opened Keys
  import opened Installing

  /** The keys `downloadOffline` derives from the requests of the content
      cache's entries. */
  function CachedKeys(content: Cache, origin: Url): (ks: set<Key>)
    ensures forall u :: u in content ==> StoredKey(origin, content[u].request) in ks
    ensures forall k :: k in ks ==> exists u :: u in content && StoredKey(origin, content[u].request) == k
  {
    set u | u in content :: StoredKey(origin, content[u].request)
  }

  /** Duplicate-free. */
  predicate Distinct(xs: seq<Key>) {
    forall i, j :: 0 <= i < j < |xs| ==> xs[i] != xs[j]
  }

  /** `downloadOffline` as written: collect the keys of the content cache,
      then request every manifest key not among them in a single `addAll`.
      Returns the requested keys and the content cache afterwards (`None`
      when `addAll` rejects, leaving the cache as it was). */
  method DownloadOffline(content: Cache, origin: Url, resources: Manifest, net: Network)
    returns (requested: seq<Key>, stored: Option<Cache>)
    ensures forall k :: k in requested <==> k in resources && k !in CachedKeys(content, origin)
    ensures Distinct(requested)
    ensures stored == AddAll(content, ResolveAll(origin, requested), net)
  {
    var current: set<Key> := {};
    var entries := content.Keys;
    while entries != {}
      invariant entries <= content.Keys
      invariant forall u :: u in content && u !in entries ==> StoredKey(origin, content[u].request) in current
      invariant forall k :: k in current ==> exists u :: u in content && StoredKey(origin, content[u].request) == k
      decreases entries
    {
      var u :| u in entries;
      current := current + {StoredKey(origin, content[u].request)};
      entries := entries - {u};
    }
    assert current == CachedKeys(content, origin);
    requested := [];
    var pending := resources.Keys;
    while pending != {}
      invariant pending <= resources.Keys
      invariant forall k :: k in requested <==> k in resources && k !in pending && k !in current
      invariant forall i :: 0 <= i < |requested| ==> requested[i] !in pending
      invariant Distinct(requested)
      decreases pending
    {
      var k :| k in pending;
      if k !in current {
        requested := requested + [k];
      }
      pending := pending - {k};
    }
    stored := AddAll(content, ResolveAll(origin, requested), net);
  }

  /** A request that matches the URL of a resource, where neither the origin
      nor the resource path holds a `#`, is that very URL unless its own key
      holds a `#`. */
  lemma MatchingRequestIsResolved(origin: Url, k: Key, r: Url)
    requires '#' !in origin && '#' !in k
    requires WithoutFragment(r) == WithoutFragment(ResolveKey(origin, k))
    requires '#' !in StoredKey(origin, r)
    ensures r == ResolveKey(origin, k)
  {
    var url := ResolveKey(origin, k);
    assert url == origin + "/" || url == origin + "/" + k;
    FragmentFreeUrl(url);
  }

  /** After a successful `downloadOffline` every manifest key (other than the
      empty one, which has no URL of its own) is held by the content cache,
      provided the origin and the keys hold no `#`. */
  lemma {:induction false} DownloadCompletes(content: Cache, origin: Url, resources: Manifest, net: Network,
                                             requested: seq<Key>, done: Cache)
    requires '#' !in origin && forall k :: k in resources ==> '#' !in k
    requires WellKeyed(content)
    requires forall k :: k in requested <==> k in resources && k !in CachedKeys(content, origin)
    requires AddAll(content, ResolveAll(origin, requested), net) == Some(done)
    ensures forall k :: k in resources && k != "" ==> k in CachedKeys(done, origin)
    ensures forall u :: u in content ==> u in done
    ensures WellKeyed(done)
  {
    var urls := ResolveAll(origin, requested);
    forall k | k in resources && k != ""
      ensures k in CachedKeys(done, origin)
    {
      if k in CachedKeys(content, origin) {
        var u :| u in content && StoredKey(origin, content[u].request) == k;
        if exists v :: v in urls && WithoutFragment(v) == u {
          var v :| v in urls && WithoutFragment(v) == u;
          InResolveAll(origin, requested, v);
          var k' :| k' in requested && v == ResolveKey(origin, k');
          MatchingRequestIsResolved(origin, k', content[u].request);
          assert done[u].request == v;
        } else {
          assert done[u] == content[u];
        }
      } else {
        InResolveAll(origin, requested, ResolveKey(origin, k));
        StoredKeyOfResolved(origin, k);
        assert done[WithoutFragment(ResolveKey(origin, k))].request == ResolveKey(origin, k);
      }
    }
  }
}

=== FILE: text.dfy ===
/**
 The JavaScript string operations the worker uses for URL handling, with their
 JavaScript meaning: `startsWith`, `substring(n)`, `indexOf` and `split(p)[0]`.
 URLs are plain strings here, exactly as the worker treats them.
 */
module Text {

  /** `s.startsWith(p)`. */
  predicate StartsWith(s: string, p: string) {
    |p| <= |s| && s[..|p|] == p
  }

  /** `s` starts with `p` exactly when it is `p` followed by something. */
  lemma StartsWithConcat(s: string, p: string)
    ensures StartsWith(s, p) <==> exists t :: s == p + t
  {
    if StartsWith(s, p) {
      assert s == p + s[|p|..];
    }
  }

  /** `pat` occurs in `s` starting at index `i`. */
  predicate OccursAt(s: string, pat: string, i: nat) {
    i + |pat| <= |s| && s[i..i + |pat|] == pat
  }

  /** `pat` occurs nowhere in `s`. */
  predicate Absent(s: string, pat: string) {
    forall i: nat :: i <= |s| ==> !OccursAt(s, pat, i)
  }

  /** `s.substring(n)` for `n >= 0`: everything after the first `n` characters,
      and the empty string when `s` is shorter (JavaScript clamps the index). */
  function Drop(s: string, n: nat): (r: string)
    ensures n <= |s| ==> s[..n] + r == s
    ensures |s| <= n ==> r == ""
  {
    if n <= |s| then s[n..] else ""
  }

  /** `s.indexOf(pat, from)`: the first index at or after `from` where `pat`
      occurs, or -1 when there is none. */
  function IndexOfFrom(s: string, pat: string, from: nat): (r: int)
    decreases |s| - from
    ensures r == -1 <==> forall j: nat :: from <= j ==> !OccursAt(s, pat, j)
    ensures r != -1 ==> from <= r && OccursAt(s, pat, r)
    ensures r != -1 ==> forall j: nat :: from <= j < r ==> !OccursAt(s, pat, j)
  {
    if from + |pat| > |s| then -1
    else if OccursAt(s, pat, from) then from
    else IndexOfFrom(s, pat, from + 1)
  }

  /** `s.indexOf(pat)`. */
  function IndexOf(s: string, pat: string): (r: int)
    ensures r == -1 <==> Absent(s, pat)
    ensures r != -1 ==> 0 <= r && OccursAt(s, pat, r)
    ensures r != -1 ==> forall j: nat :: j < r ==> !OccursAt(s, pat, j)
  {
    IndexOfFrom(s, pat, 0)
  }

  /** A prefix of `s` before which no occurrence of `pat` starts, and which
      ends either where `s` ends or where an occurrence of `pat` begins. */
  predicate CutBefore(s: string, pat: string, r: string) {
    && StartsWith(s, r)
    && (forall i: nat :: i < |r| ==> !OccursAt(s, pat, i))
    && (r == s || OccursAt(s, pat, |r|))
  }

  /** An occurrence inside a prefix is an occurrence in the whole string. */
  lemma PrefixOccurrence(s: string, r: string, pat: string, i: nat)
    requires StartsWith(s, r)
    requires OccursAt(r, pat, i)
    ensures OccursAt(s, pat, i)
  {
    assert s[i..i + |pat|] == r[i..i + |pat|];
  }

  /** `s.split(pat)[0]` for a non-empty `pat`: the text before the first
      occurrence of `pat`, or all of `s` when `pat` does not occur. */
  function Before(s: string, pat: string): (r: string)
    requires pat != ""
    ensures CutBefore(s, pat, r)
    ensures Absent(r, pat)
  {
    var i := IndexOf(s, pat);
    var r := if i == -1 then s else s[..i];
    forall j: nat | OccursAt(r, pat, j)
      ensures false
    {
      PrefixOccurrence(s, r, pat, j);
    }
    r
  }

  /** There is only one way to cut `s` before `pat`: `CutBefore` pins down
      the result of `Before` completely. */
  lemma CutBeforeUnique(s: string, pat: string, r1: string, r2: string)
    requires pat != ""
    requires CutBefore(s, pat, r1) && CutBefore(s, pat, r2)
    ensures r1 == r2
  {
  }

  /** The first character of `pat` does not recur inside it, so two
      occurrences of `pat` can never overlap (true of `?v=`). */
  predicate HeadUnique(pat: string) {
    pat != "" && forall j :: 0 < j < |pat| ==> pat[j] != pat[0]
  }

  /** Cutting a string that does not contain `pat` leaves it whole, and
      whatever follows an appended `pat` is cut off. */
  lemma {:induction false} BeforeAppended(s: string, pat: string, tail: string)
    requires HeadUnique(pat)
    requires Absent(s, pat)
    ensures Before(s, pat) == s
    ensures Before(s + pat + tail, pat) == s
  {
    var t := s + pat + tail;
    assert t[..|s|] == s;
    assert t[|s|..|s| + |pat|] == pat;
    forall i: nat | i < |s|
      ensures !OccursAt(t, pat, i)
    {
      if i + |pat| <= |s| {
        assert t[i..i + |pat|] == s[i..i + |pat|];
        assert !OccursAt(s, pat, i);
      } else {
        assert pat[|s| - i] != pat[0];
        assert t[i..i + |pat|][|s| - i] == pat[0];
      }
    }
    CutBeforeUnique(t, pat, Before(t, pat), s);
  }

  /** A string without the character `c` holds no occurrence of `[c]`. */
  lemma AbsentChar(s: string, c: char)
    requires c !in s
    ensures Absent(s, [c])
  {
    forall i: nat | i <= |s|
      ensures !OccursAt(s, [c], i)
    {
      if i < |s| {
        assert s[i] in s;
      }
    }
  }
}
